=== FILE: README.md ===
# PyDesk remote-desktop core, modelled in Dafny

This project models the decision logic at the heart of PyDesk, a two-party
remote-desktop tool in which a *host* streams its screen to a *viewer* and
injects the viewer's mouse and keyboard events.

- **Wire framing** (`NetworkManager` in `common/network.py`): every message is
  a 4-byte big-endian length header followed by that many bytes. The sender
  hands header and payload to one `sendall`. The receiver reads the header with
  one `recv(4)`, then reassembles the payload in chunks of at most
  `buffer_size` bytes. Around this sit the raw key hand-off, the credential
  check, `close`, and the convention that every failure becomes `None` or
  `False`.
- **Host** (`RemoteHost` in `host/host.py`): mapping of each received input
  message to at most one injected action, the 5-pixel lime border drawn on
  each capture, the frame-rate gate, the stop on a failed send, and session
  start and stop.
- **Viewer** (`RemoteView` and `FrameReceiver` in `client/client.py`): the
  mouse and key handlers that turn a local event into at most one outgoing
  message, and the receive loop that turns each inbound object into a
  rendered frame, an error, or nothing.

Modules: `Wrappers` (Option), `Wire` (bytes, the `"!I"` header), `Messages`
(message kinds, the credential, and the received-object model), `Network`,
`Host`, `Client`, and `Relay` (viewer event → host injection, end to end).

The peer's bytes are a sequence: everything the peer sends before it closes.
One `recv(n)` returns a non-empty prefix of at most `n` of those bytes, and
returns nothing once they run out. The network picks each length (a "grant").
The key result about the reassembly loop is that it returns the same thing for
every choice of grants. Pickle, Fernet, JPEG/base64 encoding, lz4,
`QImage.fromData`, the screen grab and the clock are passed in as functions or
values.

Behaviour of the code that the model keeps, even where it looks unintended:

- A closed connection never ends a loop. `receive_data` returns `None`, and
  both the host input loop and the viewer receive loop just go around again.
- A server whose `receive_data` fails during authentication raises. It does
  not answer false.
- The viewer sends the lower-cased text of any key event that has text. Keys
  are not checked against a fixed vocabulary.
- The host sends each frame as base64 text, but the viewer runs lz4
  decompression on the `data` field. The model therefore claims no
  host-to-viewer frame round trip. The viewer's decoders are parameters, and
  nothing is assumed about how they treat the host's text.

## Model

| member | source | states |
|---|---|---|
| Wire.PackU32 | common/network.py:109 | `"!I"` packing succeeds iff the length is below 2^32; it then gives 4 bytes that unpack to that length |
| Wire.UnpackU32 | common/network.py:170 | `struct.unpack("!I", …)` decodes any 4-byte header to a length below 2^32 |
| Wire.Concat | common/network.py:184 | `b''.join` of the chunks: pinned by `Wire.ConcatSnoc` together with the empty join |
| Wire.ConcatSnoc | common/network.py:184 | joining one more chunk appends exactly that chunk's bytes to the join |
| Wire.UnpackPack | common/network.py:170 | every 4-byte header is the packing of the length it decodes to, so a header and its length are one-to-one |
| Network.SocketToUse | common/network.py:97-100 | the socket `send_data`, `_send_raw`, `_recv_raw` and `receive_data` use for the role: `Network.RoleSelectsSocket` proves a server never depends on its listening socket and a client never on `client_socket` |
| Network.FrameAndSend | common/network.py:109-112 | header and data go out as one write iff the length fits and the role's socket is present and open; the write is a well-formed frame around the data; an oversized length raises |
| Network.SendRaw | common/network.py:118-129 | the raw key hand-off frames its data unencrypted; it raises iff the socket is unusable or the data is too long |
| Network.SendData | common/network.py:94-116 | true iff the socket is usable and the ciphertext length fits; the header carries the ciphertext's length, not the plaintext's |
| Network.RecvLen | common/network.py:149 | one `recv` returns nothing iff the peer has closed or zero bytes were asked for; otherwise it returns 1 to `requested` bytes, and any such count is possible |
| Network.ReadFrame | common/network.py:165-184 | reference reading of one frame: unread bytes are a suffix of the input; a payload comes back only when the input starts with a correct frame around it; "peer closed" iff the input is empty |
| Network.RecvChunks | common/network.py:173-184 | the chunk loop asks for `min(buffer_size, remaining)`: never past the announced size, and less than the buffer only for the last, exact request; it returns exactly the first `size` bytes and consumes nothing more, or fails iff the peer closed first; chunks are non-empty and at most `buffer_size` long |
| Network.ReadFramed | common/network.py:131-155 | header read plus chunk loop give the same result and unread bytes as `ReadFrame`, for every chunk schedule |
| Network.RecvRawResult | common/network.py:138-155 | `_recv_raw` returns the payload on success and `None` iff the header read was empty; every other failure propagates as an exception |
| Network.ReceiveData | common/network.py:186-195 | `receive_data` gives `None` for every framing failure, every decrypt failure and every unpickle failure |
| Network.FrameRoundTrip | common/network.py:109-112 | a frame whose header arrives whole is read back as exactly its payload, and the bytes after it stay unread |
| Network.MessageRoundTrip | common/network.py:157-192 | for an object that pickle round-trips, what `send_data` writes, `receive_data` at a peer with the same key turns back into the same object and leaves the rest of the stream unread |
| Network.ShortHeaderNotRetried | common/network.py:166-170 | a 1-3 byte header read is not retried: `receive_data` gives `None` and `_recv_raw` raises |
| Network.NoSilentTruncation | common/network.py:176-180 | a peer that closes mid-payload causes a definite failure, never a shorter payload |
| Network.CheckCredential | common/network.py:83-88 | the server accepts iff the object is a dict with `type == MSG_AUTH` and `key == AUTH_KEY`; `None` raises; any other type is a rejection |
| Network.Authenticate | common/network.py:81-92 | the server branch checks the received object and ignores its key argument; the client branch reports success whether or not its send went out, and writes the framed auth message when the send succeeds |
| Network.StartServer | common/network.py:49-55 | the accepted socket becomes the server's socket; the key goes out raw iff that socket is open; the key and role stay unchanged |
| Network.Connect | common/network.py:57-79 | connect succeeds iff the host is reachable, a whole key frame arrives, and Fernet accepts the key; only then is the key adopted, and on failure the old key is kept |
| Network.KeyExchange | common/network.py:72-74 | a client reading the server's raw key frame adopts exactly the server's key |
| Network.CorrectCredentialAccepted | common/network.py:86-87 | a client that holds the server's key and sends the shared credential is accepted by the server |
| Network.WrongCredentialRejected | common/network.py:86-88 | any other credential is rejected, whatever key argument the server was called with |
| Network.Close | common/network.py:197-207 | after `close` the `socket` is closed, and for a server the client socket too, so the role's socket is unusable; a client's `client_socket` is left as it was; no socket appears or disappears; key and role are kept; the result is true |
| Network.RoleSelectsSocket | common/network.py:97-100 | a server's sends and reads never depend on its listening socket, and a client's never depend on `client_socket` |
| Host.Trunc | host/host.py:285 | `int()` of a float truncates toward zero: the result lies within 1 of the argument, on the side of zero |
| Host.ScaleCoord | host/host.py:285-286 | an integer ratio is multiplied exactly; a float ratio gives the integer within 1 of `ratio * size` on the side of zero; any other value raises |
| Host.FractionOfSize | host/host.py:285-286 | a ratio in [0, 1) maps to a pixel in [0, size) |
| Host.MappedPoint | host/host.py:285-291 | a move or click has a target point iff both coordinates (defaulting to 0) are numbers; `Host.MappedRatios` gives the point for float ratios |
| Host.MappedRatios | host/host.py:290-291 | two float ratios map to the truncated products with the screen size |
| Host.HandleInput | host/host.py:275-307 | at most one action per message; move/click iff that kind with numeric coordinates; key down/up iff that kind with a truthy `key`, passed through unchanged; click defaults `clicks` to 1 and `button` to `'left'`; the handler fails iff the object is a truthy non-dict or a move/click has a non-numeric coordinate |
| Host.MissingFieldsDefault | host/host.py:284-294 | a move with no coordinates goes to (0, 0); a bare click is one left click at (0, 0) |
| Host.CentreMapsToCentre | host/host.py:284-287 | ratio (0.5, 0.5) maps to the centre pixel (W/2, H/2) |
| Host.NonInputInjectsNothing | host/host.py:278-304 | auth, frame and unknown kinds, and key events without a key, inject nothing |
| Host.Injected | host/host.py:275-307 | the input loop performs at most one action per received object, and only real injections |
| Host.InjectedAppend | host/host.py:275-307 | the loop over two batches performs the first batch's actions, then the second's, in order |
| Host.InjectedOne | host/host.py:278-304 | one received object yields exactly the action its handler maps it to, when that action injects anything, and nothing otherwise |
| Host.ErrorDoesNotStopInput | host/host.py:278-307 | a message that injects nothing (`None`, a non-input kind, or one whose handler raises and is logged) is skipped: the loop performs exactly the actions of the messages before and after it |
| Host.DrawRectangle | host/host.py:251-254 | Pillow draws an outline iff the corners are ordered, and the image size is kept |
| Host.DrawInsets | host/host.py:250-254 | the loop of outlines at insets 0..n-1: pinned by `Host.InsetsPixels` |
| Host.InsetsPixels | host/host.py:250-254 | after outlines at insets 0..n-1, an in-bounds pixel is lime iff it is less than n from an edge; every other pixel is unchanged; drawing succeeds iff both sides are at least 2n-1 |
| Host.DrawBorder | host/host.py:248-254 | the border succeeds iff both sides are at least 9 pixels; it recolours exactly the pixels less than 5 from an edge |
| Host.BorderBand | host/host.py:248-254 | for images at least 10 x 10, a pixel ends up lime iff it is within 5 of an edge or was already lime |
| Host.FrameInterval | host/host.py:207 | the frame interval times the frame rate is 1 |
| Host.CapturedFrame | host/host.py:244-266 | a frame is captured iff the border can be drawn on the screenshot; its record has type FRAME, the screenshot's width and height, and as data the encoding of the bordered screenshot at the configured quality |
| Host.CaptureStep | host/host.py:238-273 | nothing is captured while `now - last_frame_time` is below the interval; `last_frame_time` becomes `now` only after a successful send; a frame is sent iff the gate is open, the border drew and `send_data` returned true; the step ends in a send failure, which clears `running`, iff the gate is open, the border drew and `send_data` returned false; a crash iff the border raised; each frame record carries type FRAME, the captured width and height, and the encoding of the bordered screenshot at the configured quality; `running` never turns back on |
| Host.SentTimes | host/host.py:238-273 | the loop sends at most one frame per clock reading, each at one of the readings |
| Host.SentTimesHead | host/host.py:238-273 | the trace follows the steps: a reading at which a frame is sent contributes itself, a wait contributes nothing, and a step that leaves the loop ends the trace |
| Host.SendsSpaced | host/host.py:239-242 | sent frames are at least one interval apart, the first at least one interval after the initial `last_frame_time` |
| Host.RateCeiling | host/host.py:239-242 | in any clock window [a, b] the loop sends at most (b - a) * frame_rate + 1 frames |
| Host.FailedSendEndsStream | host/host.py:268-271 | after a failed send no frame is ever captured again |
| Host.Start | host/host.py:213-232 | the host starts running iff authentication passed; a rejection closes the network; an exception propagates |
| Host.Stop | host/host.py:309-312 | `stop` clears `running` and leaves the network unusable |
| Host.WrongCredentialGetsNoFrames | host/host.py:219-223 | a viewer with the wrong credential never gets a frame |
| Host.StoppedHostSendsNothing | host/host.py:309-311 | once stopped, the capture loop sends nothing |
| Client.Ratio | client/client.py:352 | the ratio times the widget size gives back the widget coordinate; a zero size raises |
| Client.OnMouseMove | client/client.py:350-353 | nothing is sent before the first frame; afterwards exactly type, x, y are sent, where x and y times the view size give back the event position |
| Client.ButtonName | client/client.py:358 | the name is `'left'` iff the button is the left button, and `'right'` otherwise |
| Client.OnMousePress | client/client.py:355-362 | nothing is sent before the first frame; afterwards type, ratios, button name and `clicks = 1` are sent |
| Client.Lower | client/client.py:365 | lower-casing keeps the length and maps each character on its own |
| Client.LowerIdempotent | client/client.py:365 | lower-cased text has no upper-case ASCII letters, and lower-casing it again changes nothing |
| Client.OnKey | client/client.py:364-372 | a key event sends a press/release message with the lower-cased text iff the text is non-empty, and otherwise sends nothing |
| Client.ReceiverStep | client/client.py:274-290 | a falsy object or a non-frame dict is skipped; a truthy non-dict or a failed decompression is an error; a null image is "invalid image"; only a frame message renders, and it renders its decoded image |
| Client.ReceiverRun | client/client.py:274-290 | the receive loop emits exactly one event per object, and event i is the step of object i: a skip or error never stops the loop |
| Client.RenderOrder | client/client.py:274-290 | frames render in arrival order: events for earlier messages come before events for later ones |
| Client.RenderedAtMostFrames | client/client.py:276-287 | the view never gets more images than frame messages arrived |
| Relay.FractionBelowOne | client/client.py:352 | a widget coordinate inside the widget gives a ratio in [0, 1) |
| Relay.MoveLandsOnScreen | host/host.py:284-287 | a mouse move inside the view becomes one host `moveTo` at the truncated ratio times the host's screen size, on screen |
| Relay.PressBecomesOneClick | host/host.py:289-294 | a press inside the view becomes one host click with count 1, left iff the viewer's button was left, on screen |
| Relay.KeyBecomesKeyEvent | host/host.py:296-304 | a key event with text becomes the matching keyDown/keyUp of its lower-cased text |
| Relay.ClickOverTheWire | client/client.py:359-362 | a click sent over a working connection is read back by the host as the very message the viewer built, and injected as one click |

## Left out

- Sockets, `bind`/`listen`/`accept`/`connect` and SSL wrapping. A socket is only "present and open", and reaching the host is one boolean. Blocking, timeouts and the OS network stack are not modelled.
- Fernet and pickle are parameters of a `Codec` record. The round-trip lemmas assume only that decryption under the same key undoes encryption, and that unpickling undoes pickling for the one object sent. No byte encoding can undo pickling for every modelled object, because the reals are uncountable; `Network.CoherentCodecExists` shows that the assumptions can be met together. Fernet's random IV and timestamp are not modelled: encryption is a function of key and plaintext.
- Network.SendData: a `sendall` that fails after a partial write is modelled as writing nothing. The bytes a broken connection may already have taken are not tracked.
- Network.Close: `socket.close()` raising is not modelled, so the result is always true.
- Network.SendRaw: the `str` → bytes `encode()` branch is not modelled. The key is always bytes.
- Network.RecvChunks: `buffer_size` is a natural number. A negative size, which makes `recv` raise, is not modelled.
- Received objects are dictionaries of scalars or a single scalar (`None`, int, float, str, bytes). Booleans, nested containers and other picklable objects are not modelled.
- Host.ScaleCoord: a string or bytes coordinate is treated as an exception in the handler. Python would repeat the sequence and `int()` might then parse a digit string.
- Floats are `real`s: IEEE rounding of `e.x()/width`, `x * screen_width` and `1.0 / frame_rate` is not modelled.
- Host.DrawRectangle: follows current Pillow, which raises `ValueError` when x1 < x0 or y1 < y0. Older Pillow drew nothing.
- The JPEG save, base64 and `mss` capture are parameters of the capture loop. lz4 and `QImage.fromData` are parameters of the viewer's receive loop. The two peers disagree on the payload format, so no frame round trip is claimed.
- pyautogui injection is an action value, not an effect. Its own errors and fail-safe are not modelled.
- Threads, `time.sleep`, races on `running`, and `FrameReceiver.stop`'s `wait()` are left out. Each loop is modelled as a step function, plus a function over a sequence of steps.
- A frame rate of zero makes the host constructor raise. `FrameInterval` requires a non-zero rate instead.
- Client.Lower: lower-cases ASCII letters only. Python's full Unicode `str.lower()` is not modelled.
- The PyQt window code (`ConnectionWindow`, `ScreenWindow`, `paintEvent`, the fullscreen toggle, `RemoteClientApp`) is presentation.
- `client_gui.py` (a login dialog plus a subprocess launch) and `main.py` (argument parsing) are not part of this model.
- The older variants kept as string literals at the top of `client/client.py` and `host/host.py` are dead code.

=== FILE: client.dfy ===
/**
 * The viewer (client/client.py, the live classes): `RemoteView`'s mouse and
 * key handlers, which turn a local event into at most one outgoing message,
 * and `FrameReceiver.run`, which turns each received object into a rendered
 * frame, an error, or nothing. The lz4 decompression and `QImage.fromData`
 * are collaborators passed in as functions; sending is returned as a value.
 */
module Client {
  import opened Wrappers
  import opened Wire
  import opened Messages

  // ---------------------------------------------------------- input relay

  /** The view widget: whether a frame has arrived (`remote_pixmap` is set) and its current size. */
  datatype View = View(hasFrame: bool, width: nat, height: nat)

  datatype MouseButton = LeftButton | RightButton | MiddleButton | OtherButton(code: int)

  /** A mouse event in widget coordinates. */
  datatype MouseEvent = MouseEvent(x: int, y: int, button: MouseButton)

  /** What a handler does: nothing, one `send_data`, or a `ZeroDivisionError` out of the handler. */
  datatype Relay = Quiet | Send(msg: Obj) | Raises

  /** `e.x() / width`: Python true division; a zero-sized widget raises. */
  function Ratio(pos: int, size: nat): (r: Option<real>)
    ensures r.Some? <==> size > 0
    ensures r.Some? ==> r.value * size as real == pos as real
  {
    if size == 0 then None else Some(pos as real / size as real)
  }

  /** `mouseMoveEvent`: nothing before the first frame, otherwise the position as fractions of the view. */
  function OnMouseMove(v: View, e: MouseEvent): (r: Relay)
    ensures !v.hasFrame ==> r == Quiet
    ensures r.Send? <==> v.hasFrame && v.width > 0 && v.height > 0
    ensures r.Send? ==> r.msg.Dict? && r.msg.fields.Keys == {"type", "x", "y"}
                        && r.msg.fields["type"] == Int(MSG_MOUSE_MOVE)
                        && r.msg.fields["x"].Real? && r.msg.fields["x"].r * v.width as real == e.x as real
                        && r.msg.fields["y"].Real? && r.msg.fields["y"].r * v.height as real == e.y as real
  {
    if !v.hasFrame then Quiet
    else
      match (Ratio(e.x, v.width), Ratio(e.y, v.height))
      case (Some(x), Some(y)) => Send(Dict(map["type" := Int(MSG_MOUSE_MOVE), "x" := Real(x), "y" := Real(y)]))
      case _ => Raises
  }

  /** The button name a click carries: `'left'` for the left button, `'right'` for every other one. */
  function ButtonName(b: MouseButton): (name: string)
    ensures name == "left" <==> b == LeftButton
    ensures name == "left" || name == "right"
  {
    if b == LeftButton then "left" else "right"
  }

  /** `mousePressEvent`: like a move, plus the button name and a click count of one. */
  function OnMousePress(v: View, e: MouseEvent): (r: Relay)
    ensures !v.hasFrame ==> r == Quiet
    ensures r.Send? <==> v.hasFrame && v.width > 0 && v.height > 0
    ensures r.Send? ==> r.msg.Dict? && r.msg.fields.Keys == {"type", "x", "y", "button", "clicks"}
                        && r.msg.fields["type"] == Int(MSG_MOUSE_CLICK)
                        && r.msg.fields["clicks"] == Int(1)
                        && (r.msg.fields["button"] == Str("left") <==> e.button == LeftButton)
                        && (r.msg.fields["button"] == Str("left") || r.msg.fields["button"] == Str("right"))
                        && r.msg.fields["x"].Real? && r.msg.fields["x"].r * v.width as real == e.x as real
                        && r.msg.fields["y"].Real? && r.msg.fields["y"].r * v.height as real == e.y as real
  {
    if !v.hasFrame then Quiet
    else
      match (Ratio(e.x, v.width), Ratio(e.y, v.height))
      case (Some(x), Some(y)) =>
        Send(Dict(map["type" := Int(MSG_MOUSE_CLICK), "x" := Real(x), "y" := Real(y),
                      "button" := Str(ButtonName(e.button)), "clicks" := Int(1)]))
      case _ => Raises
  }

  function LowerChar(c: char): (d: char)
    ensures 'A' <= c <= 'Z' ==> d as int == c as int + 32
    ensures !('A' <= c <= 'Z') ==> d == c
  {
    if 'A' <= c <= 'Z' then (c as int + 32) as char else c
  }

  /** `str.lower()` on ASCII letters. */
  function Lower(s: string): (t: string)
    ensures |t| == |s|
    ensures forall i :: 0 <= i < |s| ==> t[i] == LowerChar(s[i])
  {
    seq(|s|, i requires 0 <= i < |s| => LowerChar(s[i]))
  }

  /** Lowering is idempotent: the key a viewer sends is already in lower case. */
  lemma LowerIdempotent(s: string)
    ensures Lower(Lower(s)) == Lower(s)
    ensures forall i :: 0 <= i < |s| ==> !('A' <= Lower(s)[i] <= 'Z')
  {
  }

  /**
   * `keyPressEvent` / `keyReleaseEvent`: the event text in lower case, sent
   * only when it is non-empty; unlike the mouse, no frame is needed first.
   */
  function OnKey(text: string, pressed: bool): (r: Relay)
    ensures r.Send? <==> text != ""
    ensures !r.Send? ==> r == Quiet
    ensures r.Send? ==> r.msg == Dict(map["type" := Int(if pressed then MSG_KEY_PRESS else MSG_KEY_RELEASE),
                                          "key" := Str(Lower(text))])
  {
    var k := Lower(text);
    if k != "" then Send(Dict(map["type" := Int(if pressed then MSG_KEY_PRESS else MSG_KEY_RELEASE), "key" := Str(k)]))
    else Quiet
  }

  // ------------------------------------------------------- frame receiver

  /** A decoded image as `QImage` reports it. */
  datatype Raster = Raster(width: int, height: int, pixels: seq<int>)

  /**
   * The collaborators: `decompress(v)` is `lz4.frame.decompress` on the
   * `data` field (`None` when it raises), `fromData(b)` is `QImage.fromData`
   * (`None` for a null image).
   */
  datatype Decoders = Decoders(decompress: Value -> Option<seq<byte>>, fromData: seq<byte> -> Option<Raster>)

  /** What one iteration emits: nothing, `frame_received`, or `error_occurred` (the second kind followed by a one-second sleep). */
  datatype ReceiverEvent = Skipped | Rendered(image: Raster) | InvalidImage | ReceiveError

  predicate IsFrameMessage(data: Obj) {
    ObjTruthy(data) && data.Dict? && IsCode(Get(data.fields, "type", NoneV), MSG_FRAME)
  }

  /**
   * One iteration of `FrameReceiver.run` after `receive_data`: non-frame
   * objects are skipped silently (a truthy non-dictionary raises on `.get`);
   * a frame either renders, reports an invalid image, or reports the
   * exception its decompression raised. The loop goes on in every case.
   */
  function ReceiverStep(dec: Decoders, data: Obj): (e: ReceiverEvent)
    ensures e.Rendered? ==> IsFrameMessage(data)
                            && dec.decompress(Get(data.fields, "data", NoneV)).Some?
                            && dec.fromData(dec.decompress(Get(data.fields, "data", NoneV)).value) == Some(e.image)
    ensures e == InvalidImage <==> IsFrameMessage(data) && dec.decompress(Get(data.fields, "data", NoneV)).Some?
                                   && dec.fromData(dec.decompress(Get(data.fields, "data", NoneV)).value).None?
    ensures e == Skipped <==> !ObjTruthy(data) || (data.Dict? && !IsCode(Get(data.fields, "type", NoneV), MSG_FRAME))
    ensures e == ReceiveError <==> (ObjTruthy(data) && data.Atom?)
                                   || (IsFrameMessage(data) && dec.decompress(Get(data.fields, "data", NoneV)).None?)
  {
    if !ObjTruthy(data) then Skipped
    else
      match data
      case Atom(_) => ReceiveError
      case Dict(f) =>
        if !IsCode(Get(f, "type", NoneV), MSG_FRAME) then Skipped
        else
          match dec.decompress(Get(f, "data", NoneV))
          case None => ReceiveError
          case Some(bytes) =>
            match dec.fromData(bytes)
            case None => InvalidImage
            case Some(img) => Rendered(img)
  }

  /** The events the receiver emits for a sequence of received objects, in order. */
  function ReceiverRun(dec: Decoders, msgs: seq<Obj>): (events: seq<ReceiverEvent>)
    ensures |events| == |msgs|
    ensures forall i :: 0 <= i < |msgs| ==> events[i] == ReceiverStep(dec, msgs[i])
  {
    if |msgs| == 0 then [] else [ReceiverStep(dec, msgs[0])] + ReceiverRun(dec, msgs[1..])
  }

  /** The images handed to the view, in emission order. */
  function RenderedImages(events: seq<ReceiverEvent>): seq<Raster> {
    if |events| == 0 then []
    else (if events[0].Rendered? then [events[0].image] else []) + RenderedImages(events[1..])
  }

  lemma {:induction false} RenderedImagesAppend(a: seq<ReceiverEvent>, b: seq<ReceiverEvent>)
    ensures RenderedImages(a + b) == RenderedImages(a) + RenderedImages(b)
  {
    if |a| > 0 {
      assert (a + b)[1..] == a[1..] + b;
      RenderedImagesAppend(a[1..], b);
    } else {
      assert a + b == b;
    }
  }

  /**
   * Ordering: frames are rendered strictly in arrival order — what the
   * messages received first render comes before anything later ones render.
   */
  lemma {:induction false} RenderOrder(dec: Decoders, first: seq<Obj>, second: seq<Obj>)
    ensures ReceiverRun(dec, first + second) == ReceiverRun(dec, first) + ReceiverRun(dec, second)
    ensures RenderedImages(ReceiverRun(dec, first + second))
            == RenderedImages(ReceiverRun(dec, first)) + RenderedImages(ReceiverRun(dec, second))
  {
    if |first| > 0 {
      assert (first + second)[1..] == first[1..] + second;
      RenderOrder(dec, first[1..], second);
    } else {
      assert first + second == second;
    }
    RenderedImagesAppend(ReceiverRun(dec, first), ReceiverRun(dec, second));
  }

  /** Only frame messages render, so the view never gets more images than frames arrived. */
  lemma {:induction false} RenderedAtMostFrames(dec: Decoders, msgs: seq<Obj>)
    ensures |RenderedImages(ReceiverRun(dec, msgs))| <= |FrameMessages(msgs)|
  {
    if |msgs| > 0 {
      RenderedAtMostFrames(dec, msgs[1..]);
    }
  }

  function FrameMessages(msgs: seq<Obj>): seq<Obj> {
    if |msgs| == 0 then [] else (if IsFrameMessage(msgs[0]) then [msgs[0]] else []) + FrameMessages(msgs[1..])
  }
}

=== FILE: host.dfy ===
/**
 * RemoteHost (host/host.py, the live class): the session start, the capture
 * loop's frame-rate gate, border overlay and send-failure stop, and the
 * mapping of each received input message to at most one injected action.
 * Screen capture, JPEG/base64 encoding, the network send and pyautogui are
 * collaborators: the capture loop receives them as functions, and injection
 * is returned as a value rather than performed.
 */
module Host {
  import opened Wrappers
  import opened Messages
  import opened Network

  // ------------------------------------------------------------ dispatch

  /** The host's screen size as `pyautogui.size()` reports it. */
  datatype Screen = Screen(width: nat, height: nat)

  /** Python's `int()` of a float drops the fraction toward zero: the integer nearest zero within distance 1 of the argument. */
  function Trunc(r: real): (t: int)
    ensures 0.0 <= r ==> 0 <= t && t as real <= r < t as real + 1.0
    ensures r < 0.0 ==> t <= 0 && t as real - 1.0 < r <= t as real
  {
    if r >= 0.0 then r.Floor else -((-r).Floor)
  }

  lemma FractionOfSize(x: real, size: nat)
    requires 0.0 <= x < 1.0 && size > 0
    ensures 0 <= ScaleRatio(x, size) < size
  {
    var n := size as real;
    assert 0.0 <= x * n < 1.0 * n;
  }

  /**
   * `int(v * size)` for a received ratio: exact for an integer, truncated
   * toward zero for a float; any other value makes the handler raise.
   */
  function ScaleCoord(v: Value, size: nat): (p: Option<int>)
    ensures p.Some? <==> v.Int? || v.Real?
    ensures v.Int? ==> p == Some(v.i * size)
    ensures v.Real? ==> p == Some(ScaleRatio(v.r, size))
    ensures v.Real? && v.r >= 0.0 ==> 0 <= p.value && p.value as real <= v.r * size as real < p.value as real + 1.0
    ensures v.Real? && v.r < 0.0 ==> p.value <= 0 && p.value as real - 1.0 < v.r * size as real <= p.value as real
  {
    match v
    case Int(i) => Some(i * size)
    case Real(x) => Some(ScaleRatio(x, size))
    case _ => None
  }

  /** `int(x * size)` for a float ratio x. */
  function ScaleRatio(x: real, size: nat): int {
    Trunc(x * size as real)
  }

  /** One pyautogui call, or none. `HandlerError` is an exception the loop logs before going on. */
  datatype Injection =
    | NoInjection
    | MoveTo(x: int, y: int)
    | Click(x: int, y: int, clicks: Value, button: Value)
    | KeyDown(key: Value)
    | KeyUp(key: Value)
    | HandlerError

  predicate Injects(a: Injection) {
    a.MoveTo? || a.Click? || a.KeyDown? || a.KeyUp?
  }

  /** The `type` field a received dictionary carries (`None` when absent). */
  function TypeOf(f: map<string, Value>): Value {
    Get(f, "type", NoneV)
  }

  /** The mapped point of a move or click, when both coordinates are numbers. */
  function MappedPoint(screen: Screen, f: map<string, Value>): (p: Option<(int, int)>)
    ensures p.Some? <==> (Get(f, "x", Int(0)).Int? || Get(f, "x", Int(0)).Real?)
                         && (Get(f, "y", Int(0)).Int? || Get(f, "y", Int(0)).Real?)
  {
    var x := ScaleCoord(Get(f, "x", Int(0)), screen.width);
    var y := ScaleCoord(Get(f, "y", Int(0)), screen.height);
    if x.Some? && y.Some? then Some((x.value, y.value)) else None
  }

  /** Two float ratios map to their truncated products with the screen size. */
  lemma MappedRatios(screen: Screen, f: map<string, Value>, rx: real, ry: real)
    requires "x" in f && f["x"] == Real(rx) && "y" in f && f["y"] == Real(ry)
    ensures MappedPoint(screen, f) == Some((ScaleRatio(rx, screen.width), ScaleRatio(ry, screen.height)))
  {
    assert Get(f, "x", Int(0)) == Real(rx) && Get(f, "y", Int(0)) == Real(ry);
  }

  /**
   * One iteration of `handle_client_input` after `receive_data`: a falsy
   * object is skipped, a non-dictionary raises on `.get`, and only the four
   * input kinds inject anything.
   */
  function HandleInput(screen: Screen, data: Obj): (a: Injection)
    ensures Injects(a) ==> data.Dict? && "type" in data.fields
    ensures a.MoveTo? <==> data.Dict? && IsCode(TypeOf(data.fields), MSG_MOUSE_MOVE)
                           && MappedPoint(screen, data.fields).Some?
    ensures a.Click? <==> data.Dict? && IsCode(TypeOf(data.fields), MSG_MOUSE_CLICK)
                          && MappedPoint(screen, data.fields).Some?
    ensures a.KeyDown? <==> data.Dict? && IsCode(TypeOf(data.fields), MSG_KEY_PRESS)
                            && "key" in data.fields && Truthy(data.fields["key"])
    ensures a.KeyUp? <==> data.Dict? && IsCode(TypeOf(data.fields), MSG_KEY_RELEASE)
                          && "key" in data.fields && Truthy(data.fields["key"])
    ensures (a.KeyDown? || a.KeyUp?) ==> a.key == data.fields["key"]
    ensures (a.MoveTo? || a.Click?) ==> MappedPoint(screen, data.fields) == Some((a.x, a.y))
    ensures a.Click? ==> a.clicks == Get(data.fields, "clicks", Int(1)) && a.button == Get(data.fields, "button", Str("left"))
    ensures a == HandlerError <==> (data.Atom? && Truthy(data.v))
                                   || (data.Dict? && (IsCode(TypeOf(data.fields), MSG_MOUSE_MOVE)
                                                      || IsCode(TypeOf(data.fields), MSG_MOUSE_CLICK))
                                       && MappedPoint(screen, data.fields).None?)
  {
    if !ObjTruthy(data) then NoInjection
    else
      match data
      case Atom(_) => HandlerError
      case Dict(f) =>
        var t := TypeOf(f);
        if IsCode(t, MSG_MOUSE_MOVE) then
          match MappedPoint(screen, f)
          case Some(p) => MoveTo(p.0, p.1)
          case None => HandlerError
        else if IsCode(t, MSG_MOUSE_CLICK) then
          match MappedPoint(screen, f)
          case Some(p) => Click(p.0, p.1, Get(f, "clicks", Int(1)), Get(f, "button", Str("left")))
          case None => HandlerError
        else if IsCode(t, MSG_KEY_PRESS) then
          var k := Get(f, "key", NoneV);
          if Truthy(k) then KeyDown(k) else NoInjection
        else if IsCode(t, MSG_KEY_RELEASE) then
          var k := Get(f, "key", NoneV);
          if Truthy(k) then KeyUp(k) else NoInjection
        else NoInjection
  }

  /** A move with no coordinates goes to the origin; a click with no button or count is one left click. */
  lemma MissingFieldsDefault(screen: Screen)
    ensures HandleInput(screen, Dict(map["type" := Int(MSG_MOUSE_MOVE)])) == MoveTo(0, 0)
    ensures HandleInput(screen, Dict(map["type" := Int(MSG_MOUSE_CLICK)])) == Click(0, 0, Int(1), Str("left"))
  {
  }

  /** Ratio (0.5, 0.5) lands on the centre pixel `(W/2, H/2)`, whatever the viewer's window size. */
  lemma CentreMapsToCentre(screen: Screen)
    ensures HandleInput(screen, Dict(map["type" := Int(MSG_MOUSE_MOVE), "x" := Real(0.5), "y" := Real(0.5)]))
            == MoveTo(screen.width / 2, screen.height / 2)
  {
    var w := screen.width;
    var h := screen.height;
    assert ScaleRatio(0.5, w) == w / 2 by {
      var q := w / 2;
      assert w == 2 * q || w == 2 * q + 1;
    }
    assert ScaleRatio(0.5, h) == h / 2 by {
      var q := h / 2;
      assert h == 2 * q || h == 2 * q + 1;
    }
  }

  /** Authentication, frame and unknown messages, and key events without a key, inject nothing. */
  lemma NonInputInjectsNothing(screen: Screen, f: map<string, Value>)
    requires !IsCode(TypeOf(f), MSG_MOUSE_MOVE) && !IsCode(TypeOf(f), MSG_MOUSE_CLICK)
    requires (IsCode(TypeOf(f), MSG_KEY_PRESS) || IsCode(TypeOf(f), MSG_KEY_RELEASE)) ==> !("key" in f && Truthy(f["key"]))
    ensures HandleInput(screen, Dict(f)) == NoInjection
  {
  }

  /** The actions the input loop performs, in order, for a sequence of received objects. */
  function Injected(screen: Screen, msgs: seq<Obj>): (acts: seq<Injection>)
    ensures |acts| <= |msgs|
    ensures forall i :: 0 <= i < |acts| ==> Injects(acts[i])
  {
    if |msgs| == 0 then []
    else
      var a := HandleInput(screen, msgs[0]);
      (if Injects(a) then [a] else []) + Injected(screen, msgs[1..])
  }

  /** The loop over two batches performs the first batch's actions, then the second's. */
  lemma {:induction false} InjectedAppend(screen: Screen, a: seq<Obj>, b: seq<Obj>)
    ensures Injected(screen, a + b) == Injected(screen, a) + Injected(screen, b)
  {
    if |a| == 0 {
      assert a + b == b;
    } else {
      assert (a + b)[1..] == a[1..] + b;
      InjectedAppend(screen, a[1..], b);
    }
  }

  /** One received object yields exactly the action its handler maps it to, if that injects anything. */
  lemma InjectedOne(screen: Screen, m: Obj)
    ensures Injected(screen, [m]) == if Injects(HandleInput(screen, m)) then [HandleInput(screen, m)] else []
  {
    assert [m][1..] == [];
  }

  /**
   * A message that injects nothing (`None`, a non-input kind, or one whose
   * handler raises and is logged) is skipped: the loop performs exactly the
   * actions of the messages before and after it.
   */
  lemma {:induction false} ErrorDoesNotStopInput(screen: Screen, before: seq<Obj>, bad: Obj, after: seq<Obj>)
    requires !Injects(HandleInput(screen, bad))
    ensures Injected(screen, before + [bad] + after) == Injected(screen, before) + Injected(screen, after)
  {
    InjectedAppend(screen, before, [bad] + after);
    InjectedAppend(screen, [bad], after);
    InjectedOne(screen, bad);
    assert before + [bad] + after == before + ([bad] + after);
  }

  // ------------------------------------------------------ border overlay

  datatype Color = Rgb(red: int, green: int, blue: int)

  const LIME: Color := Rgb(0, 255, 0)
  const BORDER_THICKNESS: nat := 5

  /** A captured raster; only pixels with 0 <= x < width, 0 <= y < height are meaningful. */
  datatype Image = Image(width: nat, height: nat, pixel: (int, int) -> Color)

  /** The one-pixel outline of the rectangle with corners (x0, y0) and (x1, y1), inclusive. */
  predicate OnOutline(x0: int, y0: int, x1: int, y1: int, x: int, y: int) {
    || (x0 <= x <= x1 && (y == y0 || y == y1))
    || (y0 <= y <= y1 && (x == x0 || x == x1))
  }

  /** `ImageDraw.rectangle([x0, y0, x1, y1], outline=c)`: Pillow raises when x1 < x0 or y1 < y0. */
  function DrawRectangle(img: Image, x0: int, y0: int, x1: int, y1: int, c: Color): (r: Option<Image>)
    ensures r.Some? <==> x0 <= x1 && y0 <= y1
    ensures r.Some? ==> r.value.width == img.width && r.value.height == img.height
  {
    if x1 < x0 || y1 < y0 then None
    else Some(img.(pixel := (x, y) => if OnOutline(x0, y0, x1, y1, x, y) then c else img.pixel(x, y)))
  }

  /** The outlines at insets 0 .. n-1, drawn in that order. */
  function DrawInsets(img: Image, n: nat): Option<Image> {
    if n == 0 then Some(img)
    else
      match DrawInsets(img, n - 1)
      case None => None
      case Some(prev) => DrawRectangle(prev, n - 1, n - 1, img.width - 1 - (n - 1), img.height - 1 - (n - 1), LIME)
  }

  /** Distance of an in-bounds pixel from the nearest edge. */
  function Depth(w: nat, h: nat, x: int, y: int): int {
    Min(Min(x, y), Min(w - 1 - x, h - 1 - y))
  }

  predicate InBounds(img: Image, x: int, y: int) {
    0 <= x < img.width && 0 <= y < img.height
  }

  lemma {:induction false} InsetsPixels(img: Image, n: nat)
    ensures DrawInsets(img, n).Some? <==> n == 0 || (img.width >= 2 * n - 1 && img.height >= 2 * n - 1)
    ensures DrawInsets(img, n).Some? ==>
              var out := DrawInsets(img, n).value;
              && out.width == img.width && out.height == img.height
              && forall x, y :: InBounds(img, x, y) ==>
                   out.pixel(x, y) == if Depth(img.width, img.height, x, y) < n then LIME else img.pixel(x, y)
  {
    if n > 0 {
      InsetsPixels(img, n - 1);
      if DrawInsets(img, n - 1).Some? && DrawInsets(img, n).Some? {
        var prev := DrawInsets(img, n - 1).value;
        var out := DrawInsets(img, n).value;
        var i := n - 1;
        forall x, y | InBounds(img, x, y)
          ensures out.pixel(x, y) == if Depth(img.width, img.height, x, y) < n then LIME else img.pixel(x, y)
        {
          var d := Depth(img.width, img.height, x, y);
          assert OnOutline(i, i, img.width - 1 - i, img.height - 1 - i, x, y) <==> d == i;
        }
      }
    }
  }

  /**
   * The 5-pixel lime frame drawn before encoding: it succeeds exactly on
   * images at least 9 pixels each way, recolours exactly the pixels less
   * than 5 from an edge and leaves every other pixel as captured.
   */
  function DrawBorder(img: Image): (r: Option<Image>)
    ensures r.Some? <==> img.width >= 2 * BORDER_THICKNESS - 1 && img.height >= 2 * BORDER_THICKNESS - 1
    ensures r.Some? ==> r.value.width == img.width && r.value.height == img.height
    ensures r.Some? ==> forall x, y :: InBounds(img, x, y) ==>
              r.value.pixel(x, y) == if Depth(img.width, img.height, x, y) < BORDER_THICKNESS then LIME else img.pixel(x, y)
  {
    InsetsPixels(img, BORDER_THICKNESS);
    DrawInsets(img, BORDER_THICKNESS)
  }

  /** For images of at least 10 x 10 a pixel turns lime iff it lies within 5 pixels of an edge. */
  lemma BorderBand(img: Image, x: int, y: int)
    requires img.width >= 10 && img.height >= 10 && InBounds(img, x, y)
    ensures DrawBorder(img).Some?
    ensures DrawBorder(img).value.pixel(x, y) == LIME <==>
              (x < 5 || y < 5 || img.width - 1 - x < 5 || img.height - 1 - y < 5 || img.pixel(x, y) == LIME)
  {
  }

  // ---------------------------------------------------------- capture loop

  /** Constructor parameters: JPEG quality and target frame rate. */
  datatype Config = Config(quality: int, frameRate: int)

  /** `frame_interval = 1.0 / frame_rate`; a zero rate makes the constructor raise. */
  function FrameInterval(cfg: Config): (d: real)
    requires cfg.frameRate != 0
    ensures d * cfg.frameRate as real == 1.0
  {
    1.0 / cfg.frameRate as real
  }

  /** The loop's view of the host: the shared `running` flag and its local `last_frame_time`. */
  datatype CaptureState = CaptureState(running: bool, lastFrameTime: real)

  /**
   * The collaborators of one iteration: `grab(t)` is the screenshot taken at
   * time t, `encode(img, q)` the JPEG-then-base64 text, `send(t, frame)`
   * whether `send_data` succeeds at time t.
   */
  datatype Env = Env(grab: real -> Image, encode: (Image, int) -> string, send: (real, Obj) -> bool)

  /** The record a frame is sent as. */
  function FrameRecord(img: Image, data: string): Obj {
    Dict(map["type" := Int(MSG_FRAME), "width" := Int(img.width), "height" := Int(img.height), "data" := Str(data)])
  }

  /** The frame captured at `now`: the screenshot with its border, encoded; `None` when drawing the border raises. */
  function CapturedFrame(cfg: Config, env: Env, now: real): (f: Option<Obj>)
    ensures f.Some? <==> DrawBorder(env.grab(now)).Some?
    ensures f.Some? ==>
              var shot := DrawBorder(env.grab(now)).value;
              && f.value.Dict?
              && Get(f.value.fields, "type", NoneV) == Int(MSG_FRAME)
              && Get(f.value.fields, "width", NoneV) == Int(env.grab(now).width)
              && Get(f.value.fields, "height", NoneV) == Int(env.grab(now).height)
              && Get(f.value.fields, "data", NoneV) == Str(env.encode(shot, cfg.quality))
  {
    match DrawBorder(env.grab(now))
    case None => None
    case Some(img) => Some(FrameRecord(img, env.encode(img, cfg.quality)))
  }

  datatype Tick = Exited | Waited | FrameSent(frame: Obj) | SendFailed | Crashed

  /** What one iteration ends with does not allow another: the loop has left. */
  predicate Leaves(t: Tick) {
    t.Exited? || t.SendFailed? || t.Crashed?
  }

  /**
   * One iteration of `screen_sharing_loop` at clock reading `now`. Nothing is
   * captured inside the frame interval; `last_frame_time` moves to `now` only
   * after a successful send; a failed send clears `running`. A border the
   * image is too small for raises out of the loop.
   */
  function CaptureStep(cfg: Config, env: Env, s: CaptureState, now: real): (r: (CaptureState, Tick))
    requires cfg.frameRate != 0
    ensures r.0.running ==> s.running
    ensures !s.running ==> r == (s, Exited)
    ensures s.running && now - s.lastFrameTime < FrameInterval(cfg) ==> r == (s, Waited)
    ensures r.1.FrameSent? ==> now - s.lastFrameTime >= FrameInterval(cfg) && r.0 == s.(lastFrameTime := now)
    ensures r.1.FrameSent? ==>
              var shot := env.grab(now);
              r.1.frame.Dict? && Get(r.1.frame.fields, "type", NoneV) == Int(MSG_FRAME)
              && Get(r.1.frame.fields, "width", NoneV) == Int(shot.width)
              && Get(r.1.frame.fields, "height", NoneV) == Int(shot.height)
    ensures r.1 == SendFailed ==> r.0 == s.(running := false)
    ensures var due := s.running && now - s.lastFrameTime >= FrameInterval(cfg);
            var frame := CapturedFrame(cfg, env, now);
            && (r.1 == Crashed <==> due && DrawBorder(env.grab(now)).None?)
            && (r.1.FrameSent? <==> due && frame.Some? && env.send(now, frame.value))
            && (r.1 == SendFailed <==> due && frame.Some? && !env.send(now, frame.value))
            && (r.1.FrameSent? ==> r.1.frame == frame.value)
    ensures r.1.FrameSent? ==>
              && DrawBorder(env.grab(now)).Some?
              && Get(r.1.frame.fields, "data", NoneV) == Str(env.encode(DrawBorder(env.grab(now)).value, cfg.quality))
    ensures !r.1.FrameSent? ==> r.0.lastFrameTime == s.lastFrameTime
  {
    if !s.running then (s, Exited)
    else if now - s.lastFrameTime < FrameInterval(cfg) then (s, Waited)
    else
      match CapturedFrame(cfg, env, now)
      case None => (s, Crashed)
      case Some(frame) =>
        if env.send(now, frame) then (s.(lastFrameTime := now), FrameSent(frame))
        else (s.(running := false), SendFailed)
  }

  /** Every element of `ts` is one of the readings `nows`. */
  predicate DrawnFrom(ts: seq<real>, nows: seq<real>) {
    forall i :: 0 <= i < |ts| ==> ts[i] in nows
  }

  /** Successive elements of `ts` are at least `d` apart. */
  predicate Spaced(ts: seq<real>, d: real) {
    forall i :: 0 < i < |ts| ==> ts[i] - ts[i - 1] >= d
  }

  /** The clock readings at which the loop sent a frame, iterating at the readings `nows` until it leaves. */
  function SentTimes(cfg: Config, env: Env, s: CaptureState, nows: seq<real>): (ts: seq<real>)
    requires cfg.frameRate != 0
    ensures |ts| <= |nows|
    ensures DrawnFrom(ts, nows)
    decreases |nows|
  {
    if |nows| == 0 then []
    else
      var r := CaptureStep(cfg, env, s, nows[0]);
      if r.1.FrameSent? then [nows[0]] + SentTimes(cfg, env, r.0, nows[1..])
      else if r.1.Waited? then SentTimes(cfg, env, r.0, nows[1..])
      else []
  }

  /**
   * The trace follows the steps: a reading at which `CaptureStep` sends a
   * frame contributes that reading, a wait contributes nothing, and a step
   * that leaves the loop ends the trace.
   */
  lemma SentTimesHead(cfg: Config, env: Env, s: CaptureState, now: real, later: seq<real>)
    requires cfg.frameRate != 0
    ensures var r := CaptureStep(cfg, env, s, now);
            && (r.1.FrameSent? ==> SentTimes(cfg, env, s, [now] + later) == [now] + SentTimes(cfg, env, r.0, later))
            && (r.1.Waited? ==> SentTimes(cfg, env, s, [now] + later) == SentTimes(cfg, env, s, later))
            && (Leaves(r.1) ==> SentTimes(cfg, env, s, [now] + later) == [])
  {
    assert ([now] + later)[1..] == later;
  }

  /** Successive frames are at least one frame interval apart, the first one interval after `last_frame_time`. */
  lemma {:induction false} SendsSpaced(cfg: Config, env: Env, s: CaptureState, nows: seq<real>)
    requires cfg.frameRate != 0
    ensures var ts := SentTimes(cfg, env, s, nows);
            && (|ts| > 0 ==> ts[0] - s.lastFrameTime >= FrameInterval(cfg))
            && Spaced(ts, FrameInterval(cfg))
    decreases |nows|
  {
    if |nows| > 0 {
      var r := CaptureStep(cfg, env, s, nows[0]);
      SendsSpaced(cfg, env, r.0, nows[1..]);
      if r.1.FrameSent? {
        var tail := SentTimes(cfg, env, r.0, nows[1..]);
        assert SentTimes(cfg, env, s, nows) == [nows[0]] + tail;
      }
    }
  }

  lemma {:induction false} SpacedSpan(ts: seq<real>, d: real)
    requires |ts| > 0
    requires Spaced(ts, d)
    ensures ts[|ts| - 1] - ts[0] >= (|ts| - 1) as real * d
  {
    if |ts| > 1 {
      SpacedSpan(ts[..|ts| - 1], d);
    }
  }

  lemma ScaleByRate(k: real, d: real, fr: real, span: real)
    requires fr > 0.0 && d * fr == 1.0 && k * d <= span
    ensures k <= span * fr
  {
    calc {
      k;
      == k * (d * fr);
      == (k * d) * fr;
      <= span * fr;
    }
  }

  /** A sequence of readings from [a, b] spaced at least d = 1/fr apart has at most (b - a) * fr + 1 elements. */
  lemma SpacedWithinWindow(ts: seq<real>, nows: seq<real>, a: real, b: real, d: real, fr: real)
    requires fr > 0.0 && d * fr == 1.0 && a <= b
    requires forall i :: 0 <= i < |nows| ==> a <= nows[i] <= b
    requires DrawnFrom(ts, nows) && Spaced(ts, d)
    ensures (|ts| - 1) as real <= (b - a) * fr
  {
    if |ts| > 1 {
      SpacedSpan(ts, d);
      assert ts[0] in nows && ts[|ts| - 1] in nows;
      assert a <= ts[0] && ts[|ts| - 1] <= b;
      ScaleByRate((|ts| - 1) as real, d, fr, b - a);
    } else {
      NonNegProduct(b - a, fr);
    }
  }

  lemma NonNegProduct(x: real, y: real)
    requires 0.0 <= x && 0.0 <= y
    ensures 0.0 <= x * y
  {
  }

  /**
   * The frame-rate ceiling: within any window [a, b] of clock readings the
   * loop sends at most `(b - a) * frame_rate + 1` frames.
   */
  lemma RateCeiling(cfg: Config, env: Env, s: CaptureState, nows: seq<real>, a: real, b: real)
    requires cfg.frameRate > 0 && a <= b
    requires forall i :: 0 <= i < |nows| ==> a <= nows[i] <= b
    ensures (|SentTimes(cfg, env, s, nows)| - 1) as real <= (b - a) * cfg.frameRate as real
  {
    var ts := SentTimes(cfg, env, s, nows);
    var d := FrameInterval(cfg);
    var fr := cfg.frameRate as real;
    assert DrawnFrom(ts, nows) && Spaced(ts, d) by {
      SendsSpaced(cfg, env, s, nows);
    }
    assert d * fr == 1.0;
    SpacedWithinWindow(ts, nows, a, b, d, fr);
  }

  /** A failed send ends the stream: from the state it leaves, no frame is ever captured again. */
  lemma FailedSendEndsStream(cfg: Config, env: Env, s: CaptureState, now: real, later: seq<real>)
    requires cfg.frameRate != 0
    requires CaptureStep(cfg, env, s, now).1 == SendFailed
    ensures SentTimes(cfg, env, CaptureStep(cfg, env, s, now).0, later) == []
  {
  }

  // --------------------------------------------------------- start / stop

  datatype HostState = HostState(running: bool, network: Manager)

  datatype StartOutcome = Started(host: HostState) | Refused(host: HostState) | StartRaised

  /**
   * `start` once the key has gone out: a passed check sets `running` (both
   * loops begin); a failed one closes the network and returns false; an
   * exception from the check propagates.
   */
  function Start(h: HostState, auth: AuthResult): (r: StartOutcome)
    ensures r.Started? <==> auth == Accepted
    ensures r.Refused? <==> auth == Rejected
    ensures r.StartRaised? <==> auth == AuthRaised
    ensures r.Started? ==> r.host.running && r.host.network == h.network
    ensures r.Refused? ==> r.host.running == h.running && !Usable(r.host.network)
  {
    match auth
    case Accepted => Started(h.(running := true))
    case Rejected => Refused(h.(network := Close(h.network).1))
    case AuthRaised => StartRaised
  }

  /** `stop`: clears `running` and closes the network. */
  function Stop(h: HostState): (r: HostState)
    ensures !r.running && !Usable(r.network)
    ensures r.network.key == h.network.key
  {
    HostState(false, Close(h.network).1)
  }

  /**
   * A viewer with the wrong credential never receives a frame: the host does
   * not start, and a loop over a host that is not running sends nothing.
   */
  lemma WrongCredentialGetsNoFrames(cfg: Config, env: Env, h: HostState, c: Codec, credential: string, nows: seq<real>)
    requires cfg.frameRate != 0 && h.network.isServer && !h.running && credential != AUTH_KEY
    ensures var r := Start(h, Authenticate(h.network, c, AUTH_KEY, AuthMessage(credential)).result);
            r.Refused? && SentTimes(cfg, env, CaptureState(r.host.running, 0.0), nows) == []
  {
    WrongCredentialRejected(h.network, c, AUTH_KEY, credential);
  }

  /** After `stop`, the capture loop sends nothing. */
  lemma StoppedHostSendsNothing(cfg: Config, env: Env, h: HostState, last: real, nows: seq<real>)
    requires cfg.frameRate != 0
    ensures SentTimes(cfg, env, CaptureState(Stop(h).running, last), nows) == []
  {
  }
}

=== FILE: messages.dfy ===
/**
 * The protocol's message vocabulary. A message is whatever `pickle.loads`
 * returns; the live code only ever sends dictionaries keyed by strings, so an
 * object is either such a dictionary or a single scalar (`None`, a number, a
 * string, bytes). Field access follows Python's `dict.get` and truthiness.
 */
module Messages {
  import opened Wire

  const MSG_AUTH: int := 0
  const MSG_FRAME: int := 1
  const MSG_MOUSE_MOVE: int := 2
  const MSG_MOUSE_CLICK: int := 3
  const MSG_KEY_PRESS: int := 4
  const MSG_KEY_RELEASE: int := 5
  const MSG_FILE_TRANSFER: int := 6

  /** The shared static credential both peers are built with. */
  const AUTH_KEY: string := "remote_control_auth_key_2025"

  datatype Value = NoneV | Int(i: int) | Real(r: real) | Str(s: string) | Bytes(b: seq<byte>)

  datatype Obj = Dict(fields: map<string, Value>) | Atom(v: Value)

  /** Python's `None` as a received object: also what every failed receive yields. */
  const PyNone: Obj := Atom(NoneV)

  /** Python truthiness of a scalar. */
  predicate Truthy(v: Value) {
    match v
    case NoneV => false
    case Int(i) => i != 0
    case Real(r) => r != 0.0
    case Str(s) => s != ""
    case Bytes(b) => b != []
  }

  /** Python truthiness of a received object (`if not data`). */
  predicate ObjTruthy(o: Obj) {
    match o
    case Dict(f) => f != map[]
    case Atom(v) => Truthy(v)
  }

  /** `fields.get(key, default)`. */
  function Get(fields: map<string, Value>, key: string, default: Value): Value {
    if key in fields then fields[key] else default
  }

  /** Python `v == code` for an integer constant: `2.0 == 2` holds. */
  predicate IsCode(v: Value, code: int) {
    v == Int(code) || v == Real(code as real)
  }
}

=== FILE: network.dfy ===
/**
 * NetworkManager (common/network.py): the length-prefixed framing, the
 * chunked reassembly of a payload, the key hand-off, the credential check and
 * the "every failure becomes None / False" convention.
 *
 * A socket's incoming side is modelled as the sequence of every byte the peer
 * will send before it closes; one `recv(n)` returns a non-empty prefix of at
 * most `n` of those bytes, its exact length being the network's choice (a
 * "grant"), and returns nothing once the sequence is exhausted.
 */
module Network {
  import opened Wrappers
  import opened Wire
  import opened Messages

  const BUFFER_SIZE: nat := 4096

  /** A socket object; `open` is false once it is closed or its connection is broken. */
  datatype Sock = Sock(open: bool)

  /**
   * One endpoint. `key` is the Fernet key the endpoint's cipher was built
   * with; a server talks on `clientSocket`, a client on `socket`.
   */
  datatype Manager = Manager(isServer: bool, socket: Option<Sock>, clientSocket: Option<Sock>, key: seq<byte>)

  /**
   * The foreign codecs: pickle (`dumps`/`loads`, the latter failing on bad
   * input), Fernet (`encrypt`/`decrypt` under a key, the latter failing on a
   * token that does not verify) and Fernet's key validation.
   */
  datatype Codec = Codec(
    dumps: Obj -> seq<byte>,
    loads: seq<byte> -> Option<Obj>,
    encrypt: (seq<byte>, seq<byte>) -> seq<byte>,
    decrypt: (seq<byte>, seq<byte>) -> Option<seq<byte>>,
    validKey: seq<byte> -> bool)

  /** What Fernet promises: decryption under the same key undoes encryption. */
  ghost predicate Coherent(c: Codec) {
    forall k, p :: c.decrypt(k, c.encrypt(k, p)) == Some(p)
  }

  /**
   * What pickle promises for one object: unpickling its pickle gives it
   * back. Stated per object, since no byte encoding is one-to-one on every
   * object the model can hold (reals are uncountable).
   */
  ghost predicate Pickles(c: Codec, o: Obj) {
    c.loads(c.dumps(o)) == Some(o)
  }

  /** The two promises can be met together: an identity cipher and a pickle that recovers the credential message. */
  lemma CoherentCodecExists()
    ensures exists c :: Coherent(c) && Pickles(c, AuthMessage(AUTH_KEY))
  {
    var c := Codec(o => [], b => Some(AuthMessage(AUTH_KEY)), (k, p) => p, (k, ct) => Some(ct), k => true);
    assert Pickles(c, AuthMessage(AUTH_KEY));
    assert Coherent(c);
  }

  /** The socket both `send_data` and `receive_data` pick for this role. */
  function SocketToUse(m: Manager): Option<Sock> {
    if m.isServer then m.clientSocket else m.socket
  }

  predicate Usable(m: Manager) {
    SocketToUse(m).Some? && SocketToUse(m).value.open
  }

  // ---------------------------------------------------------------- sending

  datatype SendError = LengthOverflow | NoSocket | Broken

  /** The bytes one `sendall` put on the wire, or the exception raised instead. */
  datatype Transmit = Delivered(wire: seq<byte>) | Raised(error: SendError)

  /** True when `wire` is a well-formed frame around `payload`: a 4-byte big-endian length, then the payload. */
  predicate FramedAs(wire: seq<byte>, payload: seq<byte>) {
    |wire| == HEADER_SIZE + |payload| && UnpackU32(wire[..HEADER_SIZE]) == |payload| && wire[HEADER_SIZE..] == payload
  }

  /**
   * `header + data` handed to one `sendall`: the header is packed first (it
   * raises for a length of 2^32 or more), then the role's socket is used
   * (a missing one raises AttributeError, a broken one an OSError).
   */
  function FrameAndSend(m: Manager, data: seq<byte>): (r: Transmit)
    ensures r.Delivered? <==> |data| < U32_LIMIT && Usable(m)
    ensures r.Delivered? ==> FramedAs(r.wire, data)
    ensures |data| >= U32_LIMIT ==> r == Raised(LengthOverflow)
  {
    match PackU32(|data|)
    case None => Raised(LengthOverflow)
    case Some(header) =>
      match SocketToUse(m)
      case None => Raised(NoSocket)
      case Some(s) => if s.open then Delivered(header + data) else Raised(Broken)
  }

  /** `_send_raw`: the unencrypted key hand-off; any exception propagates to the caller. */
  function SendRaw(m: Manager, data: seq<byte>): (r: Transmit)
    ensures r.Delivered? ==> FramedAs(r.wire, data)
    ensures r.Raised? <==> !Usable(m) || |data| >= U32_LIMIT
  {
    FrameAndSend(m, data)
  }

  /** The ciphertext `send_data` frames: the pickled object encrypted under the endpoint's key. */
  function Ciphertext(m: Manager, c: Codec, o: Obj): seq<byte> {
    c.encrypt(m.key, c.dumps(o))
  }

  /**
   * `send_data`: returns true exactly when the frame went out, and the
   * header carries the CIPHERTEXT's length. Every exception becomes false.
   */
  function SendData(m: Manager, c: Codec, o: Obj): (r: Transmit)
    ensures r.Delivered? <==> Usable(m) && |Ciphertext(m, c, o)| < U32_LIMIT
    ensures r.Delivered? ==> FramedAs(r.wire, c.encrypt(m.key, c.dumps(o)))
  {
    FrameAndSend(m, Ciphertext(m, c, o))
  }

  // -------------------------------------------------------------- receiving

  /**
   * Length of what one `recv(requested)` returns when `available` bytes are
   * still to come from the peer: nothing when the peer has closed (or when
   * zero bytes are asked for), otherwise between 1 and `requested` bytes,
   * the network choosing how many through `grant`.
   */
  function RecvLen(available: nat, requested: nat, grant: nat): (k: nat)
    ensures k <= available && k <= requested
    ensures k == 0 <==> available == 0 || requested == 0
    ensures 1 <= grant <= available && grant <= requested ==> k == grant
  {
    if available == 0 || requested == 0 then 0 else Min(Max(grant, 1), Min(available, requested))
  }

  datatype ReadOutcome =
    | PeerClosed           // the header read returned b''
    | ShortHeader          // 1..3 header bytes: struct.unpack raises
    | Truncated            // a payload read returned b'': ConnectionError
    | SocketError          // no socket, or a closed one
    | Payload(data: seq<byte>)

  datatype Read = Read(outcome: ReadOutcome, rest: seq<byte>)

  /**
   * What reading one frame yields and what stays unread, stated without the
   * chunk loop. The header is one `recv(4)` the network may cut short; the
   * payload is then read in full or the read fails, whatever the chunk sizes.
   */
  function ReadFrame(usable: bool, incoming: seq<byte>, headerGrant: nat, bufferSize: nat): (r: Read)
    ensures |r.rest| <= |incoming| && r.rest == incoming[|incoming| - |r.rest|..]
    ensures r.outcome.Payload? ==> |incoming| >= HEADER_SIZE + |r.outcome.data|
                                   && incoming == incoming[..HEADER_SIZE] + r.outcome.data + r.rest
                                   && FramedAs(incoming[..HEADER_SIZE + |r.outcome.data|], r.outcome.data)
    ensures r.outcome == PeerClosed <==> usable && |incoming| == 0
  {
    if !usable then Read(SocketError, incoming)
    else
      var k := RecvLen(|incoming|, HEADER_SIZE, headerGrant);
      if k == 0 then Read(PeerClosed, incoming)
      else if k < HEADER_SIZE then Read(ShortHeader, incoming[k..])
      else
        var n := UnpackU32(incoming[..HEADER_SIZE]);
        var body := incoming[HEADER_SIZE..];
        if n == 0 then
          assert incoming == incoming[..HEADER_SIZE] + [] + body;
          Read(Payload([]), body)
        else if bufferSize == 0 then Read(Truncated, body)
        else if |body| < n then Read(Truncated, [])
        else
          assert incoming == incoming[..HEADER_SIZE] + body[..n] + body[n..];
          assert incoming[..HEADER_SIZE + n][..HEADER_SIZE] == incoming[..HEADER_SIZE];
          Read(Payload(body[..n]), body[n..])
  }

  /**
   * Chunk i answered a request of `requests[i]` bytes: non-empty, no longer
   * than the request, the request no larger than the buffer or the bytes
   * still owed, and smaller than the buffer only when it asks for exactly
   * what is still owed.
   */
  predicate Requested(chunks: seq<seq<byte>>, requests: seq<nat>, size: nat, bufferSize: nat)
    requires |requests| == |chunks|
  {
    forall i :: 0 <= i < |chunks| ==>
      && 0 < |chunks[i]| <= requests[i] <= bufferSize
      && |Concat(chunks[..i])| + requests[i] <= size
      && (requests[i] == bufferSize || |Concat(chunks[..i])| + requests[i] == size)
  }

  lemma RequestedSnoc(chunks: seq<seq<byte>>, requests: seq<nat>, chunk: seq<byte>, request: nat, size: nat, bufferSize: nat)
    requires |requests| == |chunks| && Requested(chunks, requests, size, bufferSize)
    requires 0 < |chunk| <= request <= bufferSize && |Concat(chunks)| + request <= size
    requires request == bufferSize || |Concat(chunks)| + request == size
    ensures Requested(chunks + [chunk], requests + [request], size, bufferSize)
  {
    assert (chunks + [chunk])[..|chunks|] == chunks;
    assert forall i :: 0 <= i <= |chunks| ==> (chunks + [chunk])[..i] == chunks[..i];
  }

  /**
   * The state of the reassembly loop: the chunks taken so far and the unread
   * bytes split the input, no more than `size` bytes have been taken, every
   * request so far obeyed `Requested`, and with a zero buffer nothing was taken.
   */
  predicate Progress(incoming: seq<byte>, size: nat, bufferSize: nat,
                     chunks: seq<seq<byte>>, requests: seq<nat>, rest: seq<byte>)
  {
    && |requests| == |chunks|
    && |Concat(chunks)| <= size
    && incoming == Concat(chunks) + rest
    && Requested(chunks, requests, size, bufferSize)
    && (bufferSize == 0 ==> chunks == [] && rest == incoming)
  }

  /** A non-empty answer of `k` bytes to the request `min(bufferSize, remaining)` keeps the loop's state well formed. */
  lemma ProgressStep(incoming: seq<byte>, size: nat, bufferSize: nat,
                     chunks: seq<seq<byte>>, requests: seq<nat>, rest: seq<byte>, request: nat, k: nat)
    requires Progress(incoming, size, bufferSize, chunks, requests, rest)
    requires |Concat(chunks)| < size && request == Min(bufferSize, size - |Concat(chunks)|)
    requires 0 < k <= request && k <= |rest|
    ensures Progress(incoming, size, bufferSize, chunks + [rest[..k]], requests + [request], rest[k..])
    ensures |Concat(chunks + [rest[..k]])| == |Concat(chunks)| + k
  {
    ConcatSnoc(chunks, rest[..k]);
    assert rest == rest[..k] + rest[k..];
    RequestedSnoc(chunks, requests, rest[..k], request, size, bufferSize);
  }

  /** An empty answer before `size` bytes arrived: the peer closed early, or a zero buffer asked for nothing. */
  lemma ProgressStalled(incoming: seq<byte>, size: nat, bufferSize: nat,
                        chunks: seq<seq<byte>>, requests: seq<nat>, rest: seq<byte>)
    requires Progress(incoming, size, bufferSize, chunks, requests, rest)
    requires |Concat(chunks)| < size && (bufferSize == 0 || |rest| == 0)
    ensures !(size == 0 || (bufferSize > 0 && size <= |incoming|))
    ensures rest == (if bufferSize == 0 then incoming else [])
  {
  }

  /** Once `size` bytes were taken, they are exactly the first `size` bytes of the input. */
  lemma ProgressDone(incoming: seq<byte>, size: nat, bufferSize: nat,
                     chunks: seq<seq<byte>>, requests: seq<nat>, rest: seq<byte>)
    requires Progress(incoming, size, bufferSize, chunks, requests, rest)
    requires |Concat(chunks)| == size
    ensures size == 0 || (bufferSize > 0 && size <= |incoming|)
    ensures Concat(chunks) == incoming[..size] && rest == incoming[size..]
  {
  }

  /**
   * The reassembly loop shared by `_recv_raw` and `receive_data`: asks for
   * `min(bufferSize, remaining)` bytes at a time; `grants[i]` is the
   * network's choice for the i-th call (a full chunk once they run out).
   * Fails exactly when the peer closes before `size` bytes arrived (or when
   * a zero buffer size makes every request empty); never returns a short
   * payload.
   */
  method RecvChunks(incoming: seq<byte>, size: nat, bufferSize: nat, grants: seq<nat>)
    returns (ok: bool, chunks: seq<seq<byte>>, requests: seq<nat>, rest: seq<byte>)
    ensures ok <==> size == 0 || (bufferSize > 0 && size <= |incoming|)
    ensures ok ==> Concat(chunks) == incoming[..size] && rest == incoming[size..]
    ensures !ok ==> rest == (if bufferSize == 0 then incoming else [])
    ensures |requests| == |chunks|
    ensures Requested(chunks, requests, size, bufferSize)
  {
    chunks, requests, rest := [], [], incoming;
    var received := 0;
    while received < size
      invariant Progress(incoming, size, bufferSize, chunks, requests, rest)
      invariant received == |Concat(chunks)|
      decreases size - received
    {
      var chunkSize := Min(bufferSize, size - received);
      var grant := if |chunks| < |grants| then grants[|chunks|] else chunkSize;
      var k := RecvLen(|rest|, chunkSize, grant);
      if k == 0 {
        ProgressStalled(incoming, size, bufferSize, chunks, requests, rest);
        ok := false;
        return;
      }
      ProgressStep(incoming, size, bufferSize, chunks, requests, rest, chunkSize, k);
      chunks := chunks + [rest[..k]];
      requests := requests + [chunkSize];
      received := received + k;
      rest := rest[k..];
    }
    ProgressDone(incoming, size, bufferSize, chunks, requests, rest);
    ok := true;
  }

  /**
   * One framed read: `recv(4)` for the header, then the chunk loop. Matches
   * the reference `ReadFrame` for every chunk schedule the network picks.
   */
  method ReadFramed(m: Manager, incoming: seq<byte>, headerGrant: nat, grants: seq<nat>, bufferSize: nat)
    returns (r: Read)
    ensures r == ReadFrame(Usable(m), incoming, headerGrant, bufferSize)
  {
    if !Usable(m) {
      return Read(SocketError, incoming);
    }
    var k := RecvLen(|incoming|, HEADER_SIZE, headerGrant);
    if k == 0 {
      return Read(PeerClosed, incoming);
    }
    if k < HEADER_SIZE {
      return Read(ShortHeader, incoming[k..]);
    }
    var size := UnpackU32(incoming[..HEADER_SIZE]);
    var ok, chunks, requests, rest := RecvChunks(incoming[HEADER_SIZE..], size, bufferSize, grants);
    if !ok {
      return Read(Truncated, rest);
    }
    r := Read(Payload(Concat(chunks)), rest);
  }

  /** What `_recv_raw` hands back: the payload, `None` on an empty header read, or a propagating exception. */
  datatype RawResult = RawData(data: seq<byte>) | RawNone | RawRaised

  function RecvRawResult(r: Read): (res: RawResult)
    ensures res.RawData? <==> r.outcome.Payload?
    ensures res.RawData? ==> res.data == r.outcome.data
    ensures res == RawNone <==> r.outcome == PeerClosed
  {
    match r.outcome
    case Payload(d) => RawData(d)
    case PeerClosed => RawNone
    case _ => RawRaised
  }

  /**
   * `receive_data`: the received object, or `None` for an empty or short
   * header, a truncated payload, a missing socket, a token that does not
   * decrypt, or bytes that do not unpickle.
   */
  function ReceiveData(c: Codec, key: seq<byte>, r: Read): (o: Obj)
    ensures !r.outcome.Payload? ==> o == PyNone
    ensures r.outcome.Payload? && c.decrypt(key, r.outcome.data).None? ==> o == PyNone
    ensures (r.outcome.Payload? && c.decrypt(key, r.outcome.data).Some?
             && c.loads(c.decrypt(key, r.outcome.data).value).None?) ==> o == PyNone
  {
    match r.outcome
    case Payload(ct) =>
      (match c.decrypt(key, ct)
       case None => PyNone
       case Some(pt) =>
         match c.loads(pt)
         case None => PyNone
         case Some(o) => o)
    case _ => PyNone
  }

  /** A frame sent whole is read back whole, and nothing after it is consumed. */
  lemma {:induction false} FrameRoundTrip(p: seq<byte>, rest: seq<byte>, headerGrant: nat, bufferSize: nat)
    requires |p| < U32_LIMIT
    requires headerGrant >= HEADER_SIZE
    requires bufferSize > 0 || |p| == 0
    ensures FrameAndSend(Manager(false, Some(Sock(true)), None, []), p).Delivered?
    ensures ReadFrame(true, FrameAndSend(Manager(false, Some(Sock(true)), None, []), p).wire + rest, headerGrant, bufferSize)
            == Read(Payload(p), rest)
  {
    var w := FrameAndSend(Manager(false, Some(Sock(true)), None, []), p).wire;
    var incoming := w + rest;
    assert incoming[..HEADER_SIZE] == w[..HEADER_SIZE];
    assert incoming[HEADER_SIZE..] == p + rest;
    assert (p + rest)[..|p|] == p;
    assert (p + rest)[|p|..] == rest;
  }

  /**
   * End to end: what `send_data` puts on the wire, `receive_data` at a peer
   * holding the same key turns back into the same object, leaving the bytes
   * after the frame unread.
   */
  lemma {:induction false} MessageRoundTrip(sender: Manager, receiver: Manager, c: Codec, o: Obj,
                                            rest: seq<byte>, headerGrant: nat)
    requires Coherent(c) && Pickles(c, o)
    requires sender.key == receiver.key && Usable(receiver)
    requires headerGrant >= HEADER_SIZE
    requires SendData(sender, c, o).Delivered?
    ensures var r := ReadFrame(Usable(receiver), SendData(sender, c, o).wire + rest, headerGrant, BUFFER_SIZE);
            r.rest == rest && ReceiveData(c, receiver.key, r) == o
  {
    var ct := Ciphertext(sender, c, o);
    FrameRoundTrip(ct, rest, headerGrant, BUFFER_SIZE);
    assert SendData(sender, c, o).wire == FrameAndSend(Manager(false, Some(Sock(true)), None, []), ct).wire;
    assert c.decrypt(sender.key, c.encrypt(sender.key, c.dumps(o))) == Some(c.dumps(o));
    assert c.loads(c.dumps(o)) == Some(o);
  }

  /** A header cut short by the network is not retried: `receive_data` gives `None`, `_recv_raw` raises. */
  lemma ShortHeaderNotRetried(c: Codec, key: seq<byte>, incoming: seq<byte>, headerGrant: nat, bufferSize: nat)
    requires 1 <= headerGrant < HEADER_SIZE && |incoming| > 0
    ensures ReadFrame(true, incoming, headerGrant, bufferSize).outcome == ShortHeader
    ensures ReceiveData(c, key, ReadFrame(true, incoming, headerGrant, bufferSize)) == PyNone
    ensures RecvRawResult(ReadFrame(true, incoming, headerGrant, bufferSize)) == RawRaised
  {
  }

  /** A peer that closes mid-payload yields a definite failure, never a shorter payload. */
  lemma {:induction false} NoSilentTruncation(incoming: seq<byte>, headerGrant: nat, bufferSize: nat)
    requires headerGrant >= HEADER_SIZE && |incoming| >= HEADER_SIZE
    requires |incoming| - HEADER_SIZE < UnpackU32(incoming[..HEADER_SIZE])
    ensures ReadFrame(true, incoming, headerGrant, bufferSize).outcome == Truncated
    ensures RecvRawResult(ReadFrame(true, incoming, headerGrant, bufferSize)) == RawRaised
  {
  }

  // ------------------------------------------------------ session set-up

  datatype AuthResult = Accepted | Rejected | AuthRaised

  /** The object a client authenticates with. */
  function AuthMessage(key: string): Obj {
    Dict(map["type" := Int(MSG_AUTH), "key" := Str(key)])
  }

  /**
   * The server side of `authenticate`: subscripts the received object, so a
   * `None` (any failed receive), a non-dictionary or a missing field raises
   * instead of answering false. The `key` argument is not consulted.
   */
  function CheckCredential(received: Obj): (r: AuthResult)
    ensures r == Accepted <==> received.Dict? && "type" in received.fields && IsCode(received.fields["type"], MSG_AUTH)
                               && "key" in received.fields && received.fields["key"] == Str(AUTH_KEY)
    ensures received == PyNone ==> r == AuthRaised
    ensures received.Dict? && "type" in received.fields && !IsCode(received.fields["type"], MSG_AUTH) ==> r == Rejected
  {
    match received
    case Atom(_) => AuthRaised
    case Dict(f) =>
      if "type" !in f then AuthRaised
      else if !IsCode(f["type"], MSG_AUTH) then Rejected
      else if "key" !in f then AuthRaised
      else if f["key"] == Str(AUTH_KEY) then Accepted
      else Rejected
  }

  /** Result of `authenticate` and the bytes it wrote. */
  datatype AuthStep = AuthStep(result: AuthResult, wire: seq<byte>)

  /**
   * `authenticate(key)`: a server checks the next received object; a client
   * sends `{'type': MSG_AUTH, 'key': key}` and reports success whether or
   * not the send went out.
   */
  function Authenticate(m: Manager, c: Codec, key: string, received: Obj): (r: AuthStep)
    ensures m.isServer ==> r.wire == [] && r.result == CheckCredential(received)
    ensures !m.isServer ==> r.result == Accepted
    ensures !m.isServer && SendData(m, c, AuthMessage(key)).Delivered? ==>
              FramedAs(r.wire, c.encrypt(m.key, c.dumps(AuthMessage(key))))
    ensures !m.isServer && !Usable(m) ==> r.wire == []
  {
    if m.isServer then AuthStep(CheckCredential(received), [])
    else
      var sent := SendData(m, c, AuthMessage(key));
      AuthStep(Accepted, if sent.Delivered? then sent.wire else [])
  }

  /**
   * `start_server` after `accept`: the accepted socket becomes the server's
   * socket and the endpoint's key goes out raw; a failed send propagates.
   */
  function StartServer(m: Manager, accepted: Sock): (r: (Manager, Transmit))
    requires m.isServer
    ensures r.0.clientSocket == Some(accepted) && r.0.key == m.key && r.0.isServer
    ensures r.1.Delivered? <==> accepted.open && |m.key| < U32_LIMIT
    ensures r.1.Delivered? ==> FramedAs(r.1.wire, m.key)
  {
    var m' := m.(socket := Some(Sock(true)), clientSocket := Some(accepted));
    (m', SendRaw(m', m.key))
  }

  /**
   * `connect`: `reachable` is whether the TCP connection succeeds. The key is
   * then read with `_recv_raw` (default buffer size) and adopted only when
   * Fernet accepts it; `None` from an empty header also fails, since
   * `Fernet(None)` raises. Every failure returns false with the cipher unchanged.
   */
  function Connect(m: Manager, c: Codec, reachable: bool, incoming: seq<byte>, headerGrant: nat): (r: (bool, Manager))
    requires !m.isServer
    ensures r.1.socket == Some(Sock(reachable))
    ensures r.0 <==> reachable && ReadFrame(true, incoming, headerGrant, BUFFER_SIZE).outcome.Payload?
                     && c.validKey(ReadFrame(true, incoming, headerGrant, BUFFER_SIZE).outcome.data)
    ensures r.0 ==> r.1.key == ReadFrame(true, incoming, headerGrant, BUFFER_SIZE).outcome.data
    ensures !r.0 ==> r.1.key == m.key
  {
    var m' := m.(socket := Some(Sock(reachable)));
    if !reachable then (false, m')
    else
      match RecvRawResult(ReadFrame(Usable(m'), incoming, headerGrant, BUFFER_SIZE))
      case RawData(k) => if c.validKey(k) then (true, m'.(key := k)) else (false, m')
      case _ => (false, m')
  }

  /**
   * The raw key hand-off: a client connecting to a server that delivered its
   * key header whole adopts exactly the server's key.
   */
  lemma {:induction false} KeyExchange(server: Manager, accepted: Sock, client: Manager, c: Codec,
                                       rest: seq<byte>, headerGrant: nat)
    requires server.isServer && !client.isServer
    requires StartServer(server, accepted).1.Delivered?
    requires headerGrant >= HEADER_SIZE && c.validKey(server.key)
    ensures var r := Connect(client, c, true, StartServer(server, accepted).1.wire + rest, headerGrant);
            r.0 && r.1.key == server.key
  {
    var w := StartServer(server, accepted).1.wire;
    assert w == FrameAndSend(Manager(false, Some(Sock(true)), None, []), server.key).wire;
    FrameRoundTrip(server.key, rest, headerGrant, BUFFER_SIZE);
  }

  /**
   * A viewer that received the server's key and authenticates with the
   * shared credential is accepted by the server.
   */
  lemma {:induction false} CorrectCredentialAccepted(server: Manager, client: Manager, c: Codec,
                                                     rest: seq<byte>, headerGrant: nat)
    requires Coherent(c) && Pickles(c, AuthMessage(AUTH_KEY))
    requires server.isServer && !client.isServer && Usable(server)
    requires client.key == server.key
    requires SendData(client, c, AuthMessage(AUTH_KEY)).Delivered?
    requires headerGrant >= HEADER_SIZE
    ensures var sent := Authenticate(client, c, AUTH_KEY, PyNone).wire;
            var got := ReceiveData(c, server.key, ReadFrame(true, sent + rest, headerGrant, BUFFER_SIZE));
            Authenticate(server, c, AUTH_KEY, got).result == Accepted
  {
    MessageRoundTrip(client, server, c, AuthMessage(AUTH_KEY), rest, headerGrant);
  }

  /** Any other credential is turned down, and the server's own `key` argument does not rescue it. */
  lemma {:induction false} WrongCredentialRejected(server: Manager, c: Codec, serverArg: string, credential: string)
    requires server.isServer && credential != AUTH_KEY
    ensures Authenticate(server, c, serverArg, AuthMessage(credential)).result == Rejected
  {
    var f := AuthMessage(credential).fields;
    assert f["key"] == Str(credential) != Str(AUTH_KEY);
  }

  /**
   * `close`: a server closes its client socket, then every endpoint closes
   * its own socket; the key and role are untouched and the call reports true.
   */
  function Close(m: Manager): (r: (bool, Manager))
    ensures r.0
    ensures !Usable(r.1)
    ensures r.1.isServer == m.isServer && r.1.key == m.key
    ensures r.1.socket.Some? <==> m.socket.Some?
    ensures r.1.clientSocket.Some? <==> m.clientSocket.Some?
    ensures !m.isServer ==> r.1.clientSocket == m.clientSocket
    ensures r.1.socket.Some? ==> !r.1.socket.value.open
    ensures m.isServer && r.1.clientSocket.Some? ==> !r.1.clientSocket.value.open
  {
    var cs := if m.isServer && m.clientSocket.Some? then Some(Sock(false)) else m.clientSocket;
    var s := if m.socket.Some? then Some(Sock(false)) else None;
    (true, m.(socket := s, clientSocket := cs))
  }

  /**
   * Role decides the socket: what a server sends or reads never depends on
   * its listening socket, and a client's never on `clientSocket`.
   */
  lemma RoleSelectsSocket(m: Manager, other: Option<Sock>, c: Codec, o: Obj, incoming: seq<byte>, g: nat, b: nat)
    ensures m.isServer ==> SendData(m.(socket := other), c, o) == SendData(m, c, o)
                           && ReadFrame(Usable(m.(socket := other)), incoming, g, b) == ReadFrame(Usable(m), incoming, g, b)
    ensures !m.isServer ==> SendData(m.(clientSocket := other), c, o) == SendData(m, c, o)
                            && ReadFrame(Usable(m.(clientSocket := other)), incoming, g, b) == ReadFrame(Usable(m), incoming, g, b)
  {
    var m' := if m.isServer then m.(socket := other) else m.(clientSocket := other);
    assert SocketToUse(m') == SocketToUse(m);
    assert Usable(m') == Usable(m);
  }
}

=== FILE: relay.dfy ===
/**
 * The input path end to end: a viewer event, relayed through `send_data`
 * and `receive_data`, reaches the host's dispatcher and becomes exactly one
 * injected action at the host's own screen coordinates.
 */
module Relay {
  import opened Wrappers
  import opened Wire
  import opened Messages
  import opened Network
  import Client
  import Host

  lemma FractionBelowOne(p: int, n: nat)
    requires 0 <= p < n
    ensures 0.0 <= p as real / n as real < 1.0
  {
    var q := p as real / n as real;
    assert q * n as real == p as real;
  }

  /** A mouse position inside the view maps onto the host's screen, whatever either size is. */
  lemma {:induction false} MoveLandsOnScreen(v: Client.View, e: Client.MouseEvent, screen: Host.Screen)
    requires v.hasFrame && 0 <= e.x < v.width && 0 <= e.y < v.height
    requires screen.width > 0 && screen.height > 0
    ensures Client.OnMouseMove(v, e).Send?
    ensures var a := Host.HandleInput(screen, Client.OnMouseMove(v, e).msg);
            && a == Host.MoveTo(Host.ScaleRatio(e.x as real / v.width as real, screen.width),
                                Host.ScaleRatio(e.y as real / v.height as real, screen.height))
            && 0 <= a.x < screen.width && 0 <= a.y < screen.height
  {
    var m := Client.OnMouseMove(v, e).msg;
    var rx := e.x as real / v.width as real;
    var ry := e.y as real / v.height as real;
    assert m.fields["x"] == Real(rx) && m.fields["y"] == Real(ry);
    assert 0.0 <= rx < 1.0 && 0.0 <= ry < 1.0 by {
      FractionBelowOne(e.x, v.width);
      FractionBelowOne(e.y, v.height);
    }
    Host.FractionOfSize(rx, screen.width);
    Host.FractionOfSize(ry, screen.height);
    Host.MappedRatios(screen, m.fields, rx, ry);
  }

  /** A press inside the view becomes one click of count 1 with the viewer's button mapped to left or right. */
  lemma {:induction false} PressBecomesOneClick(v: Client.View, e: Client.MouseEvent, screen: Host.Screen)
    requires v.hasFrame && 0 <= e.x < v.width && 0 <= e.y < v.height
    requires screen.width > 0 && screen.height > 0
    ensures Client.OnMousePress(v, e).Send?
    ensures var a := Host.HandleInput(screen, Client.OnMousePress(v, e).msg);
            && a.Click? && a.clicks == Int(1)
            && (a.button == Str("left") <==> e.button == Client.LeftButton)
            && 0 <= a.x < screen.width && 0 <= a.y < screen.height
  {
    var m := Client.OnMousePress(v, e).msg;
    var rx := e.x as real / v.width as real;
    var ry := e.y as real / v.height as real;
    assert m.fields["x"] == Real(rx) && m.fields["y"] == Real(ry);
    assert 0.0 <= rx < 1.0 && 0.0 <= ry < 1.0 by {
      FractionBelowOne(e.x, v.width);
      FractionBelowOne(e.y, v.height);
    }
    Host.FractionOfSize(rx, screen.width);
    Host.FractionOfSize(ry, screen.height);
    Host.MappedRatios(screen, m.fields, rx, ry);
  }

  /** A key event with text becomes the matching key-down or key-up of its lower-case text. */
  lemma KeyBecomesKeyEvent(text: string, pressed: bool, screen: Host.Screen)
    requires text != ""
    ensures var a := Host.HandleInput(screen, Client.OnKey(text, pressed).msg);
            a == (if pressed then Host.KeyDown(Str(Client.Lower(text))) else Host.KeyUp(Str(Client.Lower(text))))
  {
  }

  /**
   * Across the wire: a click the viewer sends over a working connection is
   * read back by the host as the same message and injected as one click.
   */
  lemma {:induction false} ClickOverTheWire(v: Client.View, e: Client.MouseEvent, screen: Host.Screen,
                                            viewer: Manager, host: Manager, c: Codec, rest: seq<byte>, headerGrant: nat)
    requires v.hasFrame && 0 <= e.x < v.width && 0 <= e.y < v.height
    requires screen.width > 0 && screen.height > 0
    requires Coherent(c) && Pickles(c, Client.OnMousePress(v, e).msg) && viewer.key == host.key && Usable(host) && headerGrant >= 4
    requires Client.OnMousePress(v, e).Send?
    requires SendData(viewer, c, Client.OnMousePress(v, e).msg).Delivered?
    ensures var wire := SendData(viewer, c, Client.OnMousePress(v, e).msg).wire;
            var got := ReceiveData(c, host.key, ReadFrame(true, wire + rest, headerGrant, BUFFER_SIZE));
            got == Client.OnMousePress(v, e).msg && Host.HandleInput(screen, got).Click?
  {
    MessageRoundTrip(viewer, host, c, Client.OnMousePress(v, e).msg, rest, headerGrant);
    PressBecomesOneClick(v, e, screen);
  }
}

=== FILE: wire.dfy ===
/**
 * Bytes and the 4-byte network-order length header (`struct.pack("!I", n)`)
 * that prefixes every message on the wire (common/network.py).
 */
module Wire {
  import opened Wrappers

  type byte = b: int | 0 <= b < 256

  /** 2^32: the first length `"!I"` cannot encode. */
  const U32_LIMIT: int := 0x1_0000_0000

  /** Number of header bytes a receiver asks for first. */
  const HEADER_SIZE: nat := 4

  /** Reads a 4-byte big-endian header as an unsigned integer (`struct.unpack("!I", h)[0]`). */
  function UnpackU32(h: seq<byte>): (n: nat)
    requires |h| == 4
    ensures n < U32_LIMIT
  {
    ((h[0] as int * 256 + h[1]) * 256 + h[2]) * 256 + h[3]
  }

  /**
   * `struct.pack("!I", n)`: `None` models the `struct.error` raised for a
   * value that does not fit in 32 bits.
   */
  function PackU32(n: nat): (r: Option<seq<byte>>)
    ensures r.Some? <==> n < U32_LIMIT
    ensures r.Some? ==> |r.value| == 4 && UnpackU32(r.value) == n
  {
    if n < U32_LIMIT then
      var h := [n / 16777216, (n / 65536) % 256, (n / 256) % 256, n % 256];
      PackUnpack(n);
      Some(h)
    else
      None
  }

  lemma PackUnpack(n: nat)
    requires n < U32_LIMIT
    ensures UnpackU32([n / 16777216, (n / 65536) % 256, (n / 256) % 256, n % 256]) == n
  {
    var q1 := n / 256;
    var q2 := q1 / 256;
    assert n == q1 * 256 + n % 256;
    assert q1 == q2 * 256 + q1 % 256;
    assert q2 == (q2 / 256) * 256 + q2 % 256;
    assert n / 65536 == q2;
    assert n / 16777216 == q2 / 256;
  }

  /** The header of a received message is the only 4-byte string that encodes its length. */
  lemma {:induction false} UnpackPack(h: seq<byte>)
    requires |h| == 4
    ensures PackU32(UnpackU32(h)) == Some(h)
  {
    var n := UnpackU32(h);
    var a: int := h[0] as int * 256 + h[1];
    var b: int := a * 256 + h[2];
    assert n / 256 == b && n % 256 == h[3];
    assert b / 256 == a && b % 256 == h[2];
    assert a / 256 == h[0] && a % 256 == h[1];
    assert n / 65536 == a by {
      assert n == a * 65536 + (h[2] as int * 256 + h[3]);
    }
    assert n / 16777216 == h[0] by {
      assert n == h[0] as int * 16777216 + (h[1] as int * 65536 + h[2] as int * 256 + h[3]);
    }
    assert (n / 65536) % 256 == h[1];
    assert (n / 256) % 256 == h[2];
    var p := PackU32(n);
    assert p.value == [h[0], h[1], h[2], h[3]];
    assert h == [h[0], h[1], h[2], h[3]];
  }

  /** Joins received chunks in arrival order (`b''.join(chunks)`). */
  function Concat(chunks: seq<seq<byte>>): (r: seq<byte>)
  {
    if |chunks| == 0 then [] else Concat(chunks[..|chunks| - 1]) + chunks[|chunks| - 1]
  }

  lemma ConcatSnoc(chunks: seq<seq<byte>>, c: seq<byte>)
    ensures Concat(chunks + [c]) == Concat(chunks) + c
  {
    assert (chunks + [c])[..|chunks|] == chunks;
  }
}

=== FILE: wrappers.dfy ===
/** The optional value every "may fail" foreign call of the model returns, and two integer helpers. */
module Wrappers {

  datatype Option<+T> = None | Some(value: T)

  function Min(a: int, b: int): (m: int)
    ensures m <= a && m <= b
    ensures m == a || m == b
  {
    if a <= b then a else b
  }

  function Max(a: int, b: int): (m: int)
    ensures m >= a && m >= b
    ensures m == a || m == b
  {
    if a >= b then a else b
  }
}
